=== FILE: README.md ===
# Directory tree and archive cache of FsExplorer, in Dafny

This project models the sequential logic of three pieces of the FsExplorer file browser.

- **The lazy directory tree** (`DirTreeModel`, dir_tree_model.dfy) is an arena. It is a map from node ids to nodes. Each node carries:
  - a type: NORMAL with a datum, or FAKE with a caption;
  - a status: NULL, LOADING or LOADED;
  - a parent and an ordered list of children.

  The root is FAKE/LOADED and has id 0. A node is contained in the tree when its parent chain reaches the root. `removeAllChildren` detaches the children but keeps them in the arena. That way, a callback that still holds a removed node can ask whether it is contained and get "no". The behaviour follows `DirTreeModelTest`, since the model class itself is not part of this model.
- **The node life-cycle controller** (`DirTreeController`, dir_tree_controller.dfy) handles provider switches, selection, expansion and reload. It moves NORMAL nodes from NULL to LOADING and sends a children request to the data provider.
  - The provider is asynchronous. Each request stays in a `pending` list until the environment answers it, exactly once and in any order, through `OnContentsLoaded` or `OnContentsFailed`.
  - Each answer first checks that the node is still contained.
  - The status bar and the preview controller are output logs.
- **The archive cache and dispatcher** (`ArchivesManager`, archives_manager.dfy) caches opened zip archives by path with compute-if-absent semantics. It dispatches entry listings on the entry's target type. It routes reads and extractions through the data backend for top-level archives, and through local storage for extracted ones.
  - The zip reader is a triple of total functions that may fail.
  - Every call made to the reader is returned as a trace.

Shared modules:
- `Outcomes` (outcomes.dfy): `Option` stands for Java `null`, and `Result` for a value or a thrown exception.
- `FsPaths` (fs_paths.dfy): paths, target types and node data.
- `Decimal` (decimal.dfy): decimal names for scratch directories, with a proof that they are injective.

Three behaviours of the source that the model keeps:
- The placeholder under an unexpanded directory is FAKE/LOADED (DirTreeModelTest.java:50).
- A file child is a NORMAL/LOADED leaf (DirTreeModelTest.java:61).
- `dispose` deletes only the scratch directory and keeps the cache map (ArchivesManager.java:86-101). Cached archives can still be listed afterwards, and entries of top-level archives can still be read through the backend.

## Model

| member | source | states |
|---|---|---|
| `DirTreeModel.Init` | src/test/java/fs/explorer/models/dirtree/DirTreeModelTest.java:30-35 | A fresh model holds only the root: a contained FAKE, LOADED node with no children. It satisfies the arena invariant, under which no node is listed twice among a parent's children. |
| `DirTreeModel.AddNullDirChild` | src/test/java/fs/explorer/models/dirtree/DirTreeModelTest.java:38-52 | Appends one NORMAL/NULL node for the datum as the last child. Its only child is a fresh FAKE/LOADED childless placeholder. Every other old node is unchanged, and the new node is contained exactly when its parent is. |
| `DirTreeModel.AddFileChild` | src/test/java/fs/explorer/models/dirtree/DirTreeModelTest.java:55-63 | Appends one NORMAL/LOADED childless node as the last child. Nothing else changes. |
| `DirTreeModel.AddFakeChild` | src/test/java/fs/explorer/models/dirtree/DirTreeModelTest.java:66-74 | Appends one FAKE/LOADED childless node carrying the given caption as the last child. Nothing else changes. |
| `DirTreeModel.Append` | src/test/java/fs/explorer/models/dirtree/DirTreeModelTest.java:77-89 | Adding a child keeps the existing children (the new list is the old one plus the new id) and keeps the arena invariant. The new node is contained exactly when its parent is. |
| `DirTreeModel.RemoveAllChildren` | src/test/java/fs/explorer/models/dirtree/DirTreeModelTest.java:94-101 | The node is left with no children. Keys, types and statuses are kept. The former children lose their parent link, and every other node keeps its parent and children. A node is contained afterwards exactly when it was contained and was not in the subtree of a removed child. |
| `DirTreeModel.RemovedSubtreesDetached` | src/test/java/fs/explorer/models/dirtree/DirTreeModelTest.java:124-149 | After removing the children of `n`, `n` keeps its containment, while every former child and every descendant of one is no longer contained. |
| `DirTreeModel.ContainsNode` | src/test/java/fs/explorer/models/dirtree/DirTreeModelTest.java:104-121 | Only nodes of the arena are contained. In a valid tree, a node is contained exactly when it is the root, or its parent exists and the parent's chain reaches the root. |
| `DirTreeModel.ChildContainedIffParent` | src/test/java/fs/explorer/models/dirtree/DirTreeModelTest.java:104-121 | A child is contained exactly when its parent is. With the root contained, nodes added under contained nodes are contained at any depth. |
| `DirTreeModel.ContainedBelowRootChild` | src/test/java/fs/explorer/models/dirtree/DirTreeModelTest.java:131-139 | Every contained node other than the root lies in the subtree of one of the root's children, so clearing the root detaches all of them. |
| `DirTreeModel.SetStatus` | src/main/java/fs/explorer/controllers/DirTreeController.java:126 | Changes only the status of the one NORMAL node. Structure, types and containment are kept. |
| `DirTreeController.New` | src/main/java/fs/explorer/controllers/DirTreeController.java:31-43 | A new controller uses the default provider, and its tree is the bare root. Nothing is selected or pending, and nothing has been reported or previewed. |
| `DirTreeController.ResetDataProvider` | src/main/java/fs/explorer/controllers/DirTreeController.java:58-70 | A missing provider reports ("Failed to load data", "internal error") and changes nothing else. Otherwise the provider is replaced, and the root ends with exactly one child: a contained null-dir node for the top-node datum. The selection, previews, error log and pending requests are kept, and so is every old node's status. An old node stays contained only if it was contained and not below an old root child. |
| `DirTreeController.HandleTreeSelection` | src/main/java/fs/explorer/controllers/DirTreeController.java:72-82 | No selection changes nothing. Otherwise the node is remembered, and its datum is previewed exactly when it is NORMAL. The tree, provider, requests and error log are kept. |
| `DirTreeController.HandleTreeExpansion` | src/main/java/fs/explorer/controllers/DirTreeController.java:84-99 | The controller changes if and only if a NORMAL node in status NULL is expanded, and then the result is exactly that of reloading the node's contents. With a provider, the node becomes LOADING and one request is queued. Without one, an error is reported and the tree is unchanged. |
| `DirTreeController.ReloadLastSelectedNode` | src/main/java/fs/explorer/controllers/DirTreeController.java:101-118 | Nothing happens without a selection, for a FAKE node, or for a LOADING node. Otherwise a directory reloads its contents, a file is previewed again, and a zip archive is left alone. |
| `DirTreeController.ReloadContents` | src/main/java/fs/explorer/controllers/DirTreeController.java:120-132 | Without a provider, reports an internal error and leaves the tree and statuses unchanged. With one, sets the node to LOADING, changes nothing else in the tree, and queues exactly one request for its datum. |
| `DirTreeController.AddItem` | src/main/java/fs/explorer/controllers/DirTreeController.java:144-152 | A DIRECTORY or ZIP_ARCHIVE item becomes a null-dir child; any other item becomes a file leaf. It is appended last and nothing else changes. |
| `DirTreeController.AddContents` | src/main/java/fs/explorer/controllers/DirTreeController.java:143-153 | Appends one fresh child per item, in order, after the existing children. Each child is materialised for its item, and no node fills two slots. The parent keeps its type and status, and the other old nodes are unchanged. |
| `DirTreeController.AppendLast` | src/main/java/fs/explorer/controllers/DirTreeController.java:144-152 | Appending the node of the last item after the nodes of the others yields the nodes of the whole listing, in order. |
| `DirTreeController.InsertContents` | src/main/java/fs/explorer/controllers/DirTreeController.java:140-155 | The old children and their subtrees are detached and the node is LOADED. It then has either exactly one FAKE `<empty>` child, or one distinct materialised child per result, in order. Every other old node keeps its status and children, and its parent too, unless it was a detached child. |
| `DirTreeController.OnContentsLoaded` | src/main/java/fs/explorer/controllers/DirTreeController.java:134-157 | Consumes exactly its request. If the node is no longer contained, the tree is unchanged. Otherwise the children are replaced as by `InsertContents`, and the node is LOADED. Every other old node keeps its status, children and parent, unless it was a detached child. The controller stays valid, and each status moves by at most one life-cycle step. |
| `DirTreeController.OnContentsFailed` | src/main/java/fs/explorer/controllers/DirTreeController.java:159-171 | Consumes exactly its request. If the node is no longer contained, the tree and the log are unchanged. Otherwise the node is left with exactly one FAKE `<error>` child and is LOADED, and ("Failed to load data", message) is reported. Every other old node keeps its status, children and parent, unless it was a detached child. |
| `DirTreeController.ExpandThenLoad` | src/main/java/fs/explorer/controllers/DirTreeController.java:94-157 | Expanding a contained NULL node and then answering its request leaves the node LOADED. Its children are then `<empty>`, or one distinct node per result, in order. Nothing else stays pending. |
| `DirTreeController.ExpandTwice` | src/main/java/fs/explorer/controllers/DirTreeController.java:94-98 | With a provider, a second expansion of the same node does nothing. |
| `DirTreeController.ResetOrphansPending` | src/main/java/fs/explorer/controllers/DirTreeController.java:137-139 | After switching providers, no node with a pending request is contained. A late success or failure answer then leaves the tree and the status log as they were. |
| `ArchivesManager.New` | App/src/main/java/fs/explorer/providers/dirtree/archives/ArchivesManager.java:24-28 | A new manager has an empty cache and an existing scratch directory named with the `ArchiveCache` prefix. |
| `ArchivesManager.AddArchiveIfAbsent` | App/src/main/java/fs/explorer/providers/dirtree/archives/ArchivesManager.java:30-37 | Paths that are not zip archives are rejected, with no read and no change. Otherwise the call succeeds if and only if the archive is cached or its backend read succeeds. A cached archive is returned without any read. An archive added for the first time takes exactly one backend read; it is returned and cached as top level, and the other cached archives are left as they were. |
| `ArchivesManager.ListArchive` | App/src/main/java/fs/explorer/providers/dirtree/archives/ArchivesManager.java:39-46 | Returns `None` exactly when the archive is not cached, and its root listing otherwise. The cache is never filled. |
| `ArchivesManager.ContainsArchive` | App/src/main/java/fs/explorer/providers/dirtree/archives/ArchivesManager.java:95-97 | An archive is contained exactly when it can be listed. For a contained path, an add makes no reader call, whatever the reader. |
| `ArchivesManager.ListSubEntry` | App/src/main/java/fs/explorer/providers/dirtree/archives/ArchivesManager.java:48-64 | `None` when the owning archive is not cached or the entry is a FILE. A DIRECTORY gives its listing. A ZIP_ARCHIVE is extracted, added as not top level, and its root listed; errors propagate. Cached archives are never replaced. |
| `ArchivesManager.ReadEntry` | App/src/main/java/fs/explorer/providers/dirtree/archives/ArchivesManager.java:66-84 | `None` with no read when the archive is not cached. Otherwise exactly one read, through the backend if and only if the archive is top level; a missing entry gives `None` and a reader failure an error. |
| `ArchivesManager.Dispose` | App/src/main/java/fs/explorer/providers/dirtree/archives/ArchivesManager.java:86-93 | The scratch directory is gone if and only if it was already gone or the deletion succeeded; a failed deletion is ignored. The cache map is kept. |
| `ArchivesManager.AddIfAbsent` | App/src/main/java/fs/explorer/providers/dirtree/archives/ArchivesManager.java:103-118 | A cached path returns its data with no read. Otherwise exactly one read is made through the route for its level. A success is cached and nothing else changes; a failure raises "failed to process archive" and leaves the manager unchanged. |
| `ArchivesManager.TryMakeArchive` | App/src/main/java/fs/explorer/providers/dirtree/archives/ArchivesManager.java:120-134 | Gives archive data, with the requested level, exactly when the reader's read through the level's route succeeds. |
| `ArchivesManager.RouteFor` | App/src/main/java/fs/explorer/providers/dirtree/archives/ArchivesManager.java:123-129 | Top-level archives are read through the backend and extracted ones from local storage. |
| `ArchivesManager.ExtractSubArchive` | App/src/main/java/fs/explorer/providers/dirtree/archives/ArchivesManager.java:136-162 | Without a scratch directory, fails with no call. Otherwise it uses up the next scratch sub-directory and extracts once, through the owning archive's route, to a file named by the entry's last component. A missing entry or a reader failure is an error. |
| `ArchivesManager.Destination` | App/src/main/java/fs/explorer/providers/dirtree/archives/ArchivesManager.java:143-147 | The extraction target is a non-directory path inside the scratch sub-directory, named by the entry's last component. |
| `ArchivesManager.SubArchiveDirInjective` | App/src/main/java/fs/explorer/providers/dirtree/archives/ArchivesManager.java:141-142 | Distinct counters name distinct scratch sub-directories. |
| `ArchivesManager.NextSubArchiveDirFresh` | App/src/main/java/fs/explorer/providers/dirtree/archives/ArchivesManager.java:141-142 | The next extraction never reuses a scratch sub-directory created before. |
| `ArchivesManager.AddIdempotent` | App/src/main/java/fs/explorer/providers/dirtree/archives/ArchivesManager.java:108-109 | After a successful add, adding the same path again returns the same archive with no reader call and no change, whatever the reader would answer. |
| `ArchivesManager.FailureNotCached` | App/src/main/java/fs/explorer/providers/dirtree/archives/ArchivesManager.java:110-116 | A failed read raises "failed to process archive" and leaves the archive absent, so it is not listed. A later add reads it again. |
| `ArchivesManager.TopLevelRoutesToBackend` | App/src/main/java/fs/explorer/providers/dirtree/archives/ArchivesManager.java:30-37 | An archive added through the public entry point is read through the backend and listed from the cache, and its entries are read through the backend. |
| `ArchivesManager.SubArchiveRoutesToLocal` | App/src/main/java/fs/explorer/providers/dirtree/archives/ArchivesManager.java:57-60 | A nested archive registered by listing it is read from local storage, and so are its entries. |
| `ArchivesManager.DisposeStopsExtraction` | App/src/main/java/fs/explorer/providers/dirtree/archives/ArchivesManager.java:86-101 | After disposal, listing a nested archive fails with no reader call, while cached archives are still listed as before. |
| `ArchivesManager.Apply` | App/src/main/java/fs/explorer/providers/dirtree/archives/ArchivesManager.java:30-93 | No single request evicts or replaces a cached archive, moves the scratch directory, or lowers the scratch counter. |
| `ArchivesManager.RunKeepsCache` | App/src/main/java/fs/explorer/providers/dirtree/archives/ArchivesManager.java:108-109 | Over any sequence of requests, the cache only grows. Cached archives keep their contents and level. |
| `ArchivesManager.RunExtractsFresh` | App/src/main/java/fs/explorer/providers/dirtree/archives/ArchivesManager.java:141-142 | After any sequence of requests, the next extraction goes to a scratch sub-directory that no earlier extraction used, whether that extraction came before the requests or during them. |

## Left out

- Concurrency is not modelled. This covers the `ConcurrentHashMap`, the single computation per key of `computeIfAbsent`, the asynchronous provider and the threads behind it. Operations are sequential, and provider answers are inputs given in any order.
- Thread interruption (`InterruptedIOException` in the private `addArchiveIfAbsent`) is not modelled: a failed read always raises "failed to process archive".
- `Files.createTempDirectory` picks a random name. It is modelled as a counter rendered in decimal, and the random suffix of the cache directory is a parameter. Only freshness is promised.
- `FsUtils.deleteDirectoryRecursively` is reduced to one flag: did the deletion succeed. A partial deletion is not modelled.
- `FsPath.getTargetType` and `FsPath.fromPath` are not part of this model. A directory flag gives DIRECTORY, a last component ending in `.zip` gives ZIP_ARCHIVE, and anything else gives FILE. An extracted file is a non-directory path.
- After `dispose`, the modelled reader does not know that the files extracted into the scratch directory are gone. Reading an entry of a nested archive goes through local storage and is answered by the reader function, although in the source that file was deleted.
- `ZipArchive` and `ArchivesReader` (zip parsing, the central directory) are not part of this model. An archive is its root listing plus a listing per directory entry, and the reader is a set of functions that may fail. The `FsManager` handed to the reader is folded into the reader; only the choice of route is visible.
- `ListSubEntry` does not promise that listing the same nested archive twice gives a cache hit. Each listing extracts to a fresh path, as the code does, so the cache grows on every listing.
- The caption of the root and of the placeholder is not fixed by the tests. The model uses the empty string.
- Swing side effects are left out: `dirTreePane.expandPath`, tree events and tree paths. A selection or expansion event is an optional node id.
- `resetDataProvider`: the provider's top-node callback is treated as answered at once, so the top node arrives with the provider.
- The preview pipeline and its debounce are left out. A preview request is an entry in an output log.
- The status bar is an output log of (title, detail) messages.
- Runtime exceptions other than `IOException` are not modelled, nor are null arguments other than the optional ones named in the source.

=== FILE: archives_manager.dfy ===
/** The archive cache and dispatcher. Opened zip archives are cached by path with
    compute-if-absent semantics, together with a flag telling whether the archive was opened
    from a data backend (top level) or extracted from another archive onto local storage. Listing
    and reading requests for entries are dispatched on the entry's target type and routed to the
    backend or to local storage according to that flag.

    The zip reader is abstract: a `Reader` is a triple of total functions that return a result
    or a failure message, standing for the reader together with the backend it is handed. Every
    call made to it is returned in a trace, so that "no read happens" can be stated. Creating a
    scratch directory is modelled by a counter: the k-th sub-archive goes to the directory named
    `SubArchive` followed by the decimal digits of k. */
module ArchivesManager {
  import opened Outcomes
  import opened FsPaths
  import opened Decimal

  const ArchiveCachePrefix: string := "ArchiveCache"
  const SubArchivePrefix: string := "SubArchive"
  const Separator: string := "/"

  newtype byte = x: int | 0 <= x < 256

  /** The entries of an opened zip archive: the root listing and the listing of every directory
      entry, by entry name. */
  datatype ZipArchive = Archive(rootEntries: seq<ArchiveEntryPath>, directories: map<string, seq<ArchiveEntryPath>>)
  {
    function ListRoot(): seq<ArchiveEntryPath>
    {
      rootEntries
    }

    /** The children of a directory entry; an entry the archive does not list has none. */
    function List(entry: ArchiveEntryPath): seq<ArchiveEntryPath>
    {
      if entry.entryName in directories then directories[entry.entryName] else []
    }
  }

  /** A cached archive and whether it was opened from a backend (top level) rather than
      extracted from another archive. */
  datatype ArchiveData = ArchiveData(zipArchive: ZipArchive, isTopLevel: bool)

  /** Where the reader finds an archive: through the data backend, or on local storage. */
  datatype Route = Backend | LocalFs

  /** Only the backend knows where a top-level archive lives; an extracted one is local. */
  function RouteFor(isTopLevel: bool): (r: Route)
    ensures r == Backend <==> isTopLevel
    ensures r == LocalFs <==> !isTopLevel
  {
    if isTopLevel then Backend else LocalFs
  }

  /** The abstract zip reader. `readEntryFile` answers `None` when the entry is not in the
      archive; `extractEntryFile` answers whether the entry was found. */
  datatype Reader = Reader(
    readEntries: (FsPath, Route) -> Result<ZipArchive, string>,
    readEntryFile: (FsPath, string, Route) -> Result<Option<seq<byte>>, string>,
    extractEntryFile: (FsPath, string, FsPath, Route) -> Result<bool, string>)

  /** One call made to the reader. */
  datatype ReaderCall =
    | ReadEntries(archive: FsPath, route: Route)
    | ReadEntryFile(archive: FsPath, entryName: string, route: Route)
    | ExtractEntryFile(archive: FsPath, entryName: string, destination: FsPath, route: Route)

  /** The exceptions the manager raises. */
  datatype ArchiveError =
    | NotAZipArchive
    | FailedToProcessArchive
    | EntryNotFound(entry: ArchiveEntryPath)
    | ReaderFailure(message: string)
    | CacheDirectoryMissing

  /** The cache, the scratch directory sub-archives are extracted into, the number of scratch
      sub-directories created so far, and whether the scratch directory still exists. */
  datatype Manager = Manager(
    archives: map<FsPath, ArchiveData>,
    cacheDirectory: string,
    subArchiveCount: nat,
    cacheExists: bool)

  /** The outcome of one operation: the new manager, the value or error, and the reader calls. */
  datatype Step<T> = Step(manager: Manager, result: Result<T, ArchiveError>, calls: seq<ReaderCall>)

  /** The scratch directory for the `k`-th extracted sub-archive. */
  function SubArchiveDir(cacheDirectory: string, k: nat): string
  {
    cacheDirectory + Separator + SubArchivePrefix + DecimalString(k)
  }

  /** Different counters name different scratch directories. */
  lemma SubArchiveDirInjective(d: string, a: nat, b: nat)
    requires SubArchiveDir(d, a) == SubArchiveDir(d, b)
    ensures a == b
  {
    var prefix := d + Separator + SubArchivePrefix;
    var sa, sb := SubArchiveDir(d, a), SubArchiveDir(d, b);
    assert sa[|prefix|..] == DecimalString(a);
    assert sb[|prefix|..] == DecimalString(b);
    DecimalStringInjective(a, b);
  }

  /** The destination of an extracted entry: a file named by the entry's last component. */
  function Destination(dir: string, entry: ArchiveEntryPath): (p: FsPath)
    ensures p.lastComponent == entry.lastComponent && !p.isDirectory
    ensures dir + Separator <= p.path
  {
    FsPath(dir + Separator + entry.lastComponent, false, entry.lastComponent)
  }

  /** A manager with an empty cache, whose scratch directory was created under `tempRoot` with
      the random suffix `suffix`. */
  function New(tempRoot: string, suffix: nat): (m: Manager)
    ensures m.archives == map[] && m.subArchiveCount == 0 && m.cacheExists
    ensures m.cacheDirectory == tempRoot + Separator + ArchiveCachePrefix + DecimalString(suffix)
  {
    Manager(map[], tempRoot + Separator + ArchiveCachePrefix + DecimalString(suffix), 0, true)
  }

  /** Reads an archive through the route its level calls for; a failed read gives nothing. */
  function TryMakeArchive(reader: Reader, path: FsPath, isTopLevel: bool): (r: Option<ArchiveData>)
    ensures r.Some? <==> reader.readEntries(path, RouteFor(isTopLevel)).Success?
    ensures r.Some? ==> r.value.zipArchive == reader.readEntries(path, RouteFor(isTopLevel)).value
    ensures r.Some? ==> r.value.isTopLevel == isTopLevel
  {
    match reader.readEntries(path, RouteFor(isTopLevel))
    case Success(zip) => Some(ArchiveData(zip, isTopLevel))
    case Failure(_) => None
  }

  /** Compute-if-absent: a cached archive is returned without reading; otherwise the archive is
      read once and cached only if the read succeeds. */
  function AddIfAbsent(m: Manager, reader: Reader, path: FsPath, isTopLevel: bool): (r: Step<ArchiveData>)
    ensures path in m.archives ==> r == Step(m, Success(m.archives[path]), [])
    ensures path !in m.archives ==> r.calls == [ReadEntries(path, RouteFor(isTopLevel))]
    ensures path !in m.archives ==>
              (r.result.Success? <==> reader.readEntries(path, RouteFor(isTopLevel)).Success?)
    ensures r.result.Failure? ==> r.manager == m && r.result.error == FailedToProcessArchive
    ensures r.result.Success? ==>
              r.manager == m.(archives := m.archives[path := r.result.value])
    ensures r.result.Success? && path !in m.archives ==>
              r.result.value == ArchiveData(reader.readEntries(path, RouteFor(isTopLevel)).value, isTopLevel)
  {
    if path in m.archives then Step(m, Success(m.archives[path]), [])
    else
      var call := ReadEntries(path, RouteFor(isTopLevel));
      match TryMakeArchive(reader, path, isTopLevel)
      case None => Step(m, Failure(FailedToProcessArchive), [call])
      case Some(data) => Step(m.(archives := m.archives[path := data]), Success(data), [call])
  }

  /** The public entry point: only zip archives are accepted, and they are cached as top level. */
  function AddArchiveIfAbsent(m: Manager, reader: Reader, path: FsPath): (r: Step<ZipArchive>)
    ensures path.Target() != ZipArchive ==> r == Step(m, Failure(NotAZipArchive), [])
    ensures r.result.Success? <==>
              path.Target() == ZipArchive &&
              (path in m.archives || reader.readEntries(path, Backend).Success?)
    ensures r.result.Success? ==>
              && r.manager.cacheDirectory == m.cacheDirectory && r.manager.cacheExists == m.cacheExists
              && r.manager.subArchiveCount == m.subArchiveCount
              && r.manager.archives.Keys == m.archives.Keys + {path}
              && r.manager.archives[path].zipArchive == r.result.value
              && (path in m.archives ==> r.manager == m && r.calls == [])
              && (path !in m.archives ==> r.manager.archives[path].isTopLevel)
    ensures r.result.Success? && path !in m.archives ==>
              && r.result.value == reader.readEntries(path, Backend).value
              && r.calls == [ReadEntries(path, Backend)]
              && r.manager == m.(archives := m.archives[path := ArchiveData(r.result.value, true)])
    ensures r.result.Failure? ==> r.manager == m
    ensures r.result.Failure? && path.Target() == ZipArchive ==>
              r.result.error == FailedToProcessArchive && r.calls == [ReadEntries(path, Backend)]
  {
    if path.Target() != ZipArchive then Step(m, Failure(NotAZipArchive), [])
    else
      var s := AddIfAbsent(m, reader, path, true);
      match s.result
      case Success(data) => Step(s.manager, Success(data.zipArchive), s.calls)
      case Failure(e) => Step(s.manager, Failure(e), s.calls)
  }

  /** The root listing of a cached archive, or `None` (Java `null`) when it is not cached. The
      cache is only looked up, never filled. */
  function ListArchive(m: Manager, path: FsPath): (r: Option<seq<ArchiveEntryPath>>)
    ensures r.None? <==> path !in m.archives
    ensures r.Some? ==> r.value == m.archives[path].zipArchive.ListRoot()
  {
    if path in m.archives then Some(m.archives[path].zipArchive.ListRoot()) else None
  }

  /** Whether an archive is cached: exactly the archives that can be listed, and those that an
      add returns without reading. */
  function ContainsArchive(m: Manager, path: FsPath): (b: bool)
    ensures b <==> ListArchive(m, path).Some?
    ensures b ==> forall reader :: AddIfAbsent(m, reader, path, true).calls == []
  {
    path in m.archives
  }

  /** The scratch directory the next extraction will create. */
  function NextSubArchiveDir(m: Manager): string
  {
    SubArchiveDir(m.cacheDirectory, m.subArchiveCount)
  }

  /** Extracts a nested archive entry into a new scratch directory, through the route of the
      archive that holds it. The directory is created before extracting, so it is used up even
      when the extraction fails; without the cache directory it cannot be created at all. */
  function ExtractSubArchive(m: Manager, reader: Reader, data: ArchiveData, entry: ArchiveEntryPath): (r: Step<FsPath>)
    ensures r.manager.archives == m.archives && r.manager.cacheDirectory == m.cacheDirectory
    ensures r.manager.cacheExists == m.cacheExists
    ensures !m.cacheExists ==> r == Step(m, Failure(CacheDirectoryMissing), [])
    ensures m.cacheExists ==>
              var dest := Destination(NextSubArchiveDir(m), entry);
              var answer := reader.extractEntryFile(entry.archivePath, entry.entryName, dest, RouteFor(data.isTopLevel));
              && r.manager.subArchiveCount == m.subArchiveCount + 1
              && r.calls == [ExtractEntryFile(entry.archivePath, entry.entryName, dest, RouteFor(data.isTopLevel))]
              && (answer == Success(true) ==> r.result == Success(dest))
              && (answer == Success(false) ==> r.result == Failure(EntryNotFound(entry)))
              && (answer.Failure? ==> r.result == Failure(ReaderFailure(answer.error)))
  {
    if !m.cacheExists then Step(m, Failure(CacheDirectoryMissing), [])
    else
      var dest := Destination(NextSubArchiveDir(m), entry);
      var route := RouteFor(data.isTopLevel);
      var m' := m.(subArchiveCount := m.subArchiveCount + 1);
      var call := ExtractEntryFile(entry.archivePath, entry.entryName, dest, route);
      match reader.extractEntryFile(entry.archivePath, entry.entryName, dest, route)
      case Failure(message) => Step(m', Failure(ReaderFailure(message)), [call])
      case Success(found) =>
        if found then Step(m', Success(dest), [call]) else Step(m', Failure(EntryNotFound(entry)), [call])
  }

  /** Lists an entry of a cached archive by its target type: a directory entry is listed from the
      archive, a nested archive is extracted, cached as not top level and its root listed, and a
      file has no listing (`None`). An entry of an archive that is not cached gives `None`. */
  function ListSubEntry(m: Manager, reader: Reader, entry: ArchiveEntryPath): (r: Step<Option<seq<ArchiveEntryPath>>>)
    ensures entry.archivePath !in m.archives ==> r == Step(m, Success(None), [])
    ensures entry.archivePath in m.archives && entry.targetType == Directory ==>
              r == Step(m, Success(Some(m.archives[entry.archivePath].zipArchive.List(entry))), [])
    ensures entry.archivePath in m.archives && entry.targetType == File ==> r == Step(m, Success(None), [])
    ensures r.manager.cacheDirectory == m.cacheDirectory && r.manager.cacheExists == m.cacheExists
    ensures forall p :: p in m.archives ==> p in r.manager.archives && r.manager.archives[p] == m.archives[p]
    ensures entry.archivePath in m.archives && entry.targetType == ZipArchive ==>
              var ex := ExtractSubArchive(m, reader, m.archives[entry.archivePath], entry);
              && (ex.result.Failure? ==> r == Step(ex.manager, Failure(ex.result.error), ex.calls))
              && (ex.result.Success? ==>
                    var add := AddIfAbsent(ex.manager, reader, ex.result.value, false);
                    && r.manager == add.manager && r.calls == ex.calls + add.calls
                    && (add.result.Failure? ==> r.result == Failure(FailedToProcessArchive))
                    && (add.result.Success? ==>
                          && r.result == Success(Some(add.result.value.zipArchive.ListRoot()))
                          && ex.result.value in r.manager.archives
                          && (ex.result.value !in m.archives ==> !r.manager.archives[ex.result.value].isTopLevel)))
  {
    if entry.archivePath !in m.archives then Step(m, Success(None), [])
    else
      var data := m.archives[entry.archivePath];
      match entry.targetType
      case Directory => Step(m, Success(Some(data.zipArchive.List(entry))), [])
      case File => Step(m, Success(None), [])
      case ZipArchive =>
        var ex := ExtractSubArchive(m, reader, data, entry);
        match ex.result
        case Failure(e) => Step(ex.manager, Failure(e), ex.calls)
        case Success(dest) =>
          var add := AddIfAbsent(ex.manager, reader, dest, false);
          match add.result
          case Failure(e) => Step(add.manager, Failure(e), ex.calls + add.calls)
          case Success(sub) => Step(add.manager, Success(Some(sub.zipArchive.ListRoot())), ex.calls + add.calls)
  }

  /** Reads an entry of a cached archive through the route of that archive. `None` when the
      archive is not cached (no read happens) or the entry is not in it. */
  function ReadEntry(m: Manager, reader: Reader, entry: ArchiveEntryPath): (r: Step<Option<seq<byte>>>)
    ensures r.manager == m
    ensures entry.archivePath !in m.archives ==> r.result == Success(None) && r.calls == []
    ensures entry.archivePath in m.archives ==>
              var route := RouteFor(m.archives[entry.archivePath].isTopLevel);
              var answer := reader.readEntryFile(entry.archivePath, entry.entryName, route);
              && r.calls == [ReadEntryFile(entry.archivePath, entry.entryName, route)]
              && (route == Backend <==> m.archives[entry.archivePath].isTopLevel)
              && (answer.Success? ==> r.result == Success(answer.value))
              && (answer.Failure? ==> r.result == Failure(ReaderFailure(answer.error)))
  {
    if entry.archivePath !in m.archives then Step(m, Success(None), [])
    else
      var route := RouteFor(m.archives[entry.archivePath].isTopLevel);
      var call := ReadEntryFile(entry.archivePath, entry.entryName, route);
      match reader.readEntryFile(entry.archivePath, entry.entryName, route)
      case Failure(message) => Step(m, Failure(ReaderFailure(message)), [call])
      case Success(bytes) => Step(m, Success(bytes), [call])
  }

  /** Deletes the scratch directory; a failed deletion is ignored. The cache map is kept. */
  function Dispose(m: Manager, deleted: bool): (r: Manager)
    ensures r.archives == m.archives && r.cacheDirectory == m.cacheDirectory
    ensures r.subArchiveCount == m.subArchiveCount
    ensures r.cacheExists == (m.cacheExists && !deleted)
  {
    if deleted then m.(cacheExists := false) else m
  }

  /** A second add of the same path returns the archive cached by the first, without reading,
      whatever the reader would now answer. */
  lemma AddIdempotent(m: Manager, reader: Reader, later: Reader, path: FsPath)
    ensures var first := AddArchiveIfAbsent(m, reader, path);
            first.result.Success? ==>
              AddArchiveIfAbsent(first.manager, later, path) == Step(first.manager, first.result, [])
  {
  }

  /** A failed read caches nothing: the archive is still absent, and a later add reads again. */
  lemma FailureNotCached(m: Manager, reader: Reader, later: Reader, path: FsPath)
    requires path.Target() == ZipArchive && !ContainsArchive(m, path)
    requires reader.readEntries(path, Backend).Failure?
    ensures var first := AddArchiveIfAbsent(m, reader, path);
            && first.result == Failure(FailedToProcessArchive)
            && !ContainsArchive(first.manager, path)
            && ListArchive(first.manager, path).None?
            && AddArchiveIfAbsent(first.manager, later, path).calls == [ReadEntries(path, Backend)]
  {
  }

  /** An archive added through the public entry point is read through the backend, listed from
      the cache, and its entries are read through the backend. */
  lemma TopLevelRoutesToBackend(m: Manager, reader: Reader, path: FsPath, entry: ArchiveEntryPath)
    requires !ContainsArchive(m, path) && entry.archivePath == path
    ensures var a := AddArchiveIfAbsent(m, reader, path);
            a.result.Success? ==>
              && a.calls == [ReadEntries(path, Backend)]
              && ListArchive(a.manager, path) == Some(a.result.value.ListRoot())
              && ReadEntry(a.manager, reader, entry).calls == [ReadEntryFile(path, entry.entryName, Backend)]
  {
  }

  /** A nested archive registered by listing it is read from local storage, and so are its
      entries. */
  lemma SubArchiveRoutesToLocal(m: Manager, reader: Reader, entry: ArchiveEntryPath, inner: ArchiveEntryPath)
    requires entry.archivePath in m.archives && entry.targetType == ZipArchive
    requires var ex := ExtractSubArchive(m, reader, m.archives[entry.archivePath], entry);
             ex.result.Success? && ex.result.value !in m.archives && inner.archivePath == ex.result.value
    ensures var ex := ExtractSubArchive(m, reader, m.archives[entry.archivePath], entry);
            var r := ListSubEntry(m, reader, entry);
            && r.calls[1..] == [ReadEntries(ex.result.value, LocalFs)]
            && (r.result.Success? ==>
                  ReadEntry(r.manager, reader, inner).calls == [ReadEntryFile(inner.archivePath, inner.entryName, LocalFs)])
  {
  }

  /** Once the scratch directory is deleted, nested archives can no longer be listed, while the
      archives cached before are still listed. */
  lemma DisposeStopsExtraction(m: Manager, reader: Reader, entry: ArchiveEntryPath, path: FsPath)
    requires entry.archivePath in m.archives && entry.targetType == ZipArchive
    ensures var d := Dispose(m, true);
            && ListSubEntry(d, reader, entry) == Step(d, Failure(CacheDirectoryMissing), [])
            && ListArchive(d, path) == ListArchive(m, path)
  {
  }

  /** A scratch directory created earlier is never handed out again. */
  lemma NextSubArchiveDirFresh(m: Manager, k: nat)
    requires k < m.subArchiveCount
    ensures SubArchiveDir(m.cacheDirectory, k) != NextSubArchiveDir(m)
  {
    if SubArchiveDir(m.cacheDirectory, k) == NextSubArchiveDir(m) {
      SubArchiveDirInjective(m.cacheDirectory, k, m.subArchiveCount);
    }
  }

  /** The requests a client can make of the manager. */
  datatype Op =
    | AddArchiveOp(path: FsPath)
    | ListArchiveOp(path: FsPath)
    | ListSubEntryOp(entry: ArchiveEntryPath)
    | ReadEntryOp(entry: ArchiveEntryPath)
    | DisposeOp(deleted: bool)

  /** The manager after one request. No request evicts or replaces a cached archive, moves the
      scratch directory or reuses a scratch sub-directory number. */
  function Apply(m: Manager, reader: Reader, op: Op): (r: Manager)
    ensures forall p :: p in m.archives ==> p in r.archives && r.archives[p] == m.archives[p]
    ensures r.cacheDirectory == m.cacheDirectory && r.subArchiveCount >= m.subArchiveCount
    ensures r.cacheExists ==> m.cacheExists
  {
    match op
    case AddArchiveOp(path) => AddArchiveIfAbsent(m, reader, path).manager
    case ListArchiveOp(_) => m
    case ListSubEntryOp(entry) => ListSubEntry(m, reader, entry).manager
    case ReadEntryOp(entry) => ReadEntry(m, reader, entry).manager
    case DisposeOp(deleted) => Dispose(m, deleted)
  }

  /** The manager after a sequence of requests, in order. */
  function Run(m: Manager, reader: Reader, ops: seq<Op>): Manager
    decreases |ops|
  {
    if ops == [] then m else Run(Apply(m, reader, ops[0]), reader, ops[1..])
  }

  /** The cache only grows: whatever requests follow, an archive once cached stays cached with
      the same contents and level, and the scratch directory and its numbering carry on. */
  lemma {:induction false} RunKeepsCache(m: Manager, reader: Reader, ops: seq<Op>)
    ensures var r := Run(m, reader, ops);
            && (forall p :: p in m.archives ==> p in r.archives && r.archives[p] == m.archives[p])
            && r.cacheDirectory == m.cacheDirectory && r.subArchiveCount >= m.subArchiveCount
            && (r.cacheExists ==> m.cacheExists)
    decreases |ops|
  {
    if ops != [] {
      RunKeepsCache(Apply(m, reader, ops[0]), reader, ops[1..]);
    }
  }

  /** After any requests, the next extraction goes to a scratch directory that no earlier
      extraction used, whether it was numbered before the requests or during them. */
  lemma RunExtractsFresh(m: Manager, reader: Reader, ops: seq<Op>, k: nat)
    requires k < Run(m, reader, ops).subArchiveCount
    ensures SubArchiveDir(m.cacheDirectory, k) != NextSubArchiveDir(Run(m, reader, ops))
  {
    RunKeepsCache(m, reader, ops);
    var r := Run(m, reader, ops);
    NextSubArchiveDirFresh(r, k);
  }
}


=== FILE: decimal.dfy ===
/** Decimal renderings of natural numbers, used to name the scratch sub-directories into which
    nested archives are extracted. Distinct numbers give distinct names. */
module Decimal {

  function Digit(d: nat): (c: char)
    requires d < 10
    ensures '0' <= c <= '9'
    ensures c as int - '0' as int == d
  {
    ('0' as int + d) as char
  }

  /** The decimal digits of `n`, most significant first, without leading zeros. */
  function DecimalString(n: nat): (s: string)
    ensures 1 <= |s|
    ensures n < 10 <==> |s| == 1
    decreases n
  {
    if n < 10 then [Digit(n)] else DecimalString(n / 10) + [Digit(n % 10)]
  }

  /** Two numbers with the same rendering are equal. */
  lemma {:induction false} DecimalStringInjective(a: nat, b: nat)
    requires DecimalString(a) == DecimalString(b)
    ensures a == b
    decreases a
  {
    if a >= 10 && b >= 10 {
      var sa, sb := DecimalString(a), DecimalString(b);
      assert sa[|sa| - 1] == Digit(a % 10);
      assert sb[|sb| - 1] == Digit(b % 10);
      assert sa[..|sa| - 1] == DecimalString(a / 10);
      assert sb[..|sb| - 1] == DecimalString(b / 10);
      DecimalStringInjective(a / 10, b / 10);
    }
  }
}

=== FILE: dir_tree_controller.dfy ===
/** The directory-tree controller: the NULL -> LOADING -> LOADED life cycle of tree nodes, driven
    by selection, expansion, reload and provider-switch events and by the data provider's
    success and failure callbacks. The provider is asynchronous; here each request it was given
    stays pending until the environment answers it, once, through `OnContentsLoaded` or
    `OnContentsFailed`, in any order. The status bar is an output log of error messages and the
    preview controller an output log of the data whose preview was asked for. */
module DirTreeController {
  import opened Outcomes
  import opened FsPaths
  import opened DirTreeModel

  const DataProviderError: string := "Failed to load data"
  const InternalError: string := "internal error"
  const EmptyCaption: string := "<empty>"
  const ErrorCaption: string := "<error>"

  /** One message shown on the status bar: a title and a detail. */
  datatype StatusMessage = ErrorMessage(title: string, detail: string)

  /** A tree data provider, known by its name; `topNode` is what its top-node callback delivers. */
  datatype Provider = Provider(name: string, topNode: TreeNodeData)

  /** A children request handed to the provider for `node`, whose datum is `data`. */
  datatype Request = Request(node: NodeId, data: TreeNodeData)

  datatype Controller = Controller(
    tree: Tree,
    provider: Option<Provider>,
    lastSelected: Option<NodeId>,
    pending: seq<Request>,
    errors: seq<StatusMessage>,
    previews: seq<TreeNodeData>)

  /** A request is answerable: its node is in the arena, is the NORMAL node with that datum, and
      has left status NULL. */
  ghost predicate PendingFor(t: Tree, req: Request)
  {
    req.node in t.nodes && t.nodes[req.node].kind == Normal(req.data) && t.nodes[req.node].status != Null
  }

  /** The tree is well formed with its FAKE root, the selection is a node of the arena and every
      pending request is answerable. */
  ghost predicate Valid(c: Controller)
  {
    && DirTreeModel.Valid(c.tree) && c.tree.nodes[Root].kind.Fake?
    && (c.lastSelected.Some? ==> c.lastSelected.value in c.tree.nodes)
    && (forall i :: 0 <= i < |c.pending| ==> PendingFor(c.tree, c.pending[i]))
  }

  /** The status life cycle: NULL -> LOADING, LOADING -> LOADED, LOADED -> LOADING, or no change.
      A node never returns to NULL. */
  predicate StatusStep(s: Status, s': Status)
  {
    s == s' || (s == Null && s' == Loading) || (s == Loading && s' == Loaded) ||
    (s == Loaded && s' == Loading)
  }

  /** Every node of `c` is still in `r`, with the same type, and its status moved by at most one
      step of the life cycle. */
  ghost predicate Evolves(c: Controller, r: Controller)
  {
    && KindsKept(c.tree, r.tree)
    && (forall k :: k in c.tree.nodes ==> StatusStep(c.tree.nodes[k].status, r.tree.nodes[k].status))
  }

  /** `id` holds the NORMAL node for `d`: a directory or zip archive as a null-dir node, anything
      else as a file leaf. */
  ghost predicate Materialised(t: Tree, id: NodeId, d: TreeNodeData)
  {
    if d.IsDirLike() then IsNullDir(t, id, d) else IsFileLeaf(t, id, d)
  }

  function RemoveAt<T>(s: seq<T>, i: nat): (r: seq<T>)
    requires i < |s|
    ensures |r| == |s| - 1
    ensures forall j :: 0 <= j < i ==> r[j] == s[j]
    ensures forall j :: i <= j < |r| ==> r[j] == s[j + 1]
  {
    s[..i] + s[i + 1..]
  }

  /** A controller over a fresh tree holding only the root, using `defaultProvider`. */
  function New(defaultProvider: Option<Provider>): (c: Controller)
    ensures Valid(c)
    ensures c.provider == defaultProvider && c.lastSelected.None? && c.pending == []
    ensures c.errors == [] && c.previews == []
    ensures c.tree.nodes.Keys == {Root} && GetChildren(c.tree, Root) == []
  {
    Controller(DirTreeModel.Init(), defaultProvider, None, [], [], [])
  }

  /** Adds the node for one provider item under `n`: directories and zip archives as null-dir
      children, everything else as file children. */
  function AddItem(t: Tree, n: NodeId, d: TreeNodeData): (r: Added)
    requires DirTreeModel.Valid(t) && n in t.nodes
    ensures DirTreeModel.Valid(r.tree) && KindsKept(t, r.tree)
    ensures GetChildren(r.tree, n) == GetChildren(t, n) + [r.id]
    ensures r.tree.nodes[n].kind == t.nodes[n].kind && r.tree.nodes[n].status == t.nodes[n].status
    ensures r.id !in t.nodes && Materialised(r.tree, r.id, d)
    ensures forall k {:trigger r.tree.nodes[k]} :: k in t.nodes && k != n ==> r.tree.nodes[k] == t.nodes[k]
    ensures forall x {:trigger ContainsNode(r.tree, x)} :: x in t.nodes ==> (ContainsNode(r.tree, x) <==> ContainsNode(t, x))
  {
    if d.IsDirLike() then AddNullDirChild(t, n, d) else AddFileChild(t, n, d)
  }

  /** A node materialised in `t` stays so in `r` when only `n`, which has children, and fresh
      nodes changed. */
  lemma MaterialisedKept(t: Tree, r: Tree, n: NodeId, id: NodeId, d: TreeNodeData)
    requires DirTreeModel.Valid(t) && n in t.nodes && t.nodes[n].children != []
    requires Materialised(t, id, d) && id in t.nodes[n].children
    requires t.nodes.Keys <= r.nodes.Keys
    requires forall k {:trigger r.nodes[k]} :: k in t.nodes && k != n ==> r.nodes[k] == t.nodes[k]
    ensures Materialised(r, id, d)
  {
  }

  /** `r` is `t` with one child per item of `contents` appended, in order, under `n`, each
      materialised for its item; `n` keeps its type and status, every other node of `t` is
      unchanged, and containment of the old nodes is as before. */
  ghost predicate ContentsAppended(t: Tree, r: Tree, n: NodeId, contents: seq<TreeNodeData>)
    requires n in t.nodes
  {
    && DirTreeModel.Valid(r) && KindsKept(t, r) && t.nodes.Keys <= r.nodes.Keys
    && r.nodes[n].kind == t.nodes[n].kind && r.nodes[n].status == t.nodes[n].status
    && |GetChildren(r, n)| == |GetChildren(t, n)| + |contents|
    && GetChildren(r, n)[..|GetChildren(t, n)|] == GetChildren(t, n)
    && (forall i {:trigger contents[i]} :: 0 <= i < |contents| ==>
          Materialised(r, GetChildren(r, n)[|GetChildren(t, n)| + i], contents[i]))
    && (forall k {:trigger r.nodes[k]} :: k in t.nodes && k != n ==> r.nodes[k] == t.nodes[k])
    && (forall x {:trigger ContainsNode(r, x)} :: x in t.nodes ==> (ContainsNode(r, x) <==> ContainsNode(t, x)))
  }

  /** Appending the node of the last item after the nodes of the others appends them all. */
  lemma AppendLast(t: Tree, prev: Tree, last: Added, n: NodeId, contents: seq<TreeNodeData>)
    requires DirTreeModel.Valid(t) && n in t.nodes && contents != []
    requires ContentsAppended(t, prev, n, contents[..|contents| - 1])
    requires DirTreeModel.Valid(last.tree) && KindsKept(prev, last.tree)
    requires GetChildren(last.tree, n) == GetChildren(prev, n) + [last.id]
    requires last.tree.nodes[n].kind == prev.nodes[n].kind && last.tree.nodes[n].status == prev.nodes[n].status
    requires last.id !in prev.nodes && Materialised(last.tree, last.id, contents[|contents| - 1])
    requires forall k {:trigger last.tree.nodes[k]} :: k in prev.nodes && k != n ==> last.tree.nodes[k] == prev.nodes[k]
    requires forall x {:trigger ContainsNode(last.tree, x)} :: x in prev.nodes ==>
               (ContainsNode(last.tree, x) <==> ContainsNode(prev, x))
    ensures ContentsAppended(t, last.tree, n, contents)
  {
  }

  /** Appends the nodes for `contents`, in order, under `n` (the success branch of the
      contents inserter for a non-empty listing). */
  function AddContents(t: Tree, n: NodeId, contents: seq<TreeNodeData>): (r: Tree)
    requires DirTreeModel.Valid(t) && n in t.nodes
    ensures ContentsAppended(t, r, n, contents)
    decreases |contents|
  {
    if contents == [] then t
    else
      var prev := AddContents(t, n, contents[..|contents| - 1]);
      var last := AddItem(prev, n, contents[|contents| - 1]);
      AppendLast(t, prev, last, n, contents);
      last.tree
  }

  /** Sets `n` to LOADING and hands its datum to the provider; with no provider, reports an
      internal error and leaves everything else as it was. */
  function ReloadContents(c: Controller, n: NodeId): (r: Controller)
    requires Valid(c) && n in c.tree.nodes && c.tree.nodes[n].kind.Normal?
    requires c.tree.nodes[n].status != Loading
    ensures Valid(r) && Evolves(c, r)
    ensures c.provider.None? ==>
              r == c.(errors := c.errors + [ErrorMessage(DataProviderError, InternalError)])
    ensures c.provider.Some? ==>
              && r.tree.nodes.Keys == c.tree.nodes.Keys
              && r.tree.nodes[n].status == Loading
              && r.tree.nodes[n].children == c.tree.nodes[n].children
              && (forall k {:trigger r.tree.nodes[k]} :: k in c.tree.nodes && k != n ==> r.tree.nodes[k] == c.tree.nodes[k])
              && (forall x :: ContainsNode(r.tree, x) <==> ContainsNode(c.tree, x))
              && r.pending == c.pending + [Request(n, c.tree.nodes[n].kind.data)]
              && r.errors == c.errors && r.provider == c.provider
              && r.lastSelected == c.lastSelected && r.previews == c.previews
  {
    if c.provider.None? then
      c.(errors := c.errors + [ErrorMessage(DataProviderError, InternalError)])
    else
      var r := c.(tree := SetStatus(c.tree, n, Loading),
                  pending := c.pending + [Request(n, c.tree.nodes[n].kind.data)]);
      assert forall i :: 0 <= i < |c.pending| ==> PendingFor(c.tree, c.pending[i]);
      r
  }

  /** Switches to a new provider: clears the root's children and adds the provider's top node
      as a null-dir child of the root. A missing provider is reported and changes nothing else. */
  function ResetDataProvider(c: Controller, p: Option<Provider>): (r: Controller)
    requires Valid(c)
    ensures Valid(r) && Evolves(c, r)
    ensures p.None? ==> r == c.(errors := c.errors + [ErrorMessage(DataProviderError, InternalError)])
    ensures p.Some? ==>
              && r.provider == p && r.errors == c.errors && r.pending == c.pending
              && r.lastSelected == c.lastSelected && r.previews == c.previews
              && (forall k :: k in c.tree.nodes ==> r.tree.nodes[k].status == c.tree.nodes[k].status)
              && |GetChildren(r.tree, Root)| == 1
              && IsNullDir(r.tree, GetChildren(r.tree, Root)[0], p.value.topNode)
              && ContainsNode(r.tree, GetChildren(r.tree, Root)[0])
              && (forall x {:trigger ContainsNode(r.tree, x)} :: x in c.tree.nodes ==>
                    (ContainsNode(r.tree, x) <==>
                     ContainsNode(c.tree, x) && !UnderAny(c.tree, GetChildren(c.tree, Root), x)))
  {
    if p.None? then
      c.(errors := c.errors + [ErrorMessage(DataProviderError, InternalError)])
    else
      var cleared := RemoveAllChildren(c.tree, Root);
      var top := AddNullDirChild(cleared, Root, p.value.topNode);
      ResetKeepsValid(c, cleared, top.tree);
      c.(provider := p, tree := top.tree)
  }

  /** Clearing the root and adding a node under it keeps the controller valid and evolves it. */
  lemma ResetKeepsValid(c: Controller, cleared: Tree, t: Tree)
    requires Valid(c)
    requires DirTreeModel.Valid(cleared) && KindsKept(c.tree, cleared) && cleared.nodes.Keys == c.tree.nodes.Keys
    requires forall k :: k in c.tree.nodes ==> cleared.nodes[k].status == c.tree.nodes[k].status
    requires DirTreeModel.Valid(t) && KindsKept(cleared, t) && cleared.nodes.Keys <= t.nodes.Keys
    requires forall k {:trigger t.nodes[k]} :: k in cleared.nodes && k != Root ==> t.nodes[k] == cleared.nodes[k]
    requires t.nodes[Root].status == cleared.nodes[Root].status
    ensures Valid(c.(tree := t)) && Evolves(c, c.(tree := t))
  {
  }

  /** Remembers the selected node and previews it when it is NORMAL. No selection changes
      nothing. */
  function HandleTreeSelection(c: Controller, selected: Option<NodeId>): (r: Controller)
    requires Valid(c)
    requires selected.Some? ==> selected.value in c.tree.nodes
    ensures Valid(r) && r.tree == c.tree && r.pending == c.pending && r.errors == c.errors
    ensures r.provider == c.provider
    ensures selected.None? ==> r == c
    ensures selected.Some? ==> r.lastSelected == selected
    ensures selected.Some? && c.tree.nodes[selected.value].kind.Normal? ==>
              r.previews == c.previews + [c.tree.nodes[selected.value].kind.data]
    ensures selected.Some? && c.tree.nodes[selected.value].kind.Fake? ==> r.previews == c.previews
  {
    match selected
    case None => c
    case Some(n) =>
      var kind := c.tree.nodes[n].kind;
      var c1 := c.(lastSelected := Some(n));
      if kind.Normal? then c1.(previews := c.previews + [kind.data]) else c1
  }

  /** Expanding a node loads its contents exactly when it is a NORMAL node in status NULL; any
      other expansion, or an event without a node, changes nothing. */
  function HandleTreeExpansion(c: Controller, expanded: Option<NodeId>): (r: Controller)
    requires Valid(c)
    requires expanded.Some? ==> expanded.value in c.tree.nodes
    ensures Valid(r) && Evolves(c, r)
    ensures r != c <==>
              expanded.Some? && c.tree.nodes[expanded.value].kind.Normal? &&
              c.tree.nodes[expanded.value].status == Null
    ensures r != c && c.provider.Some? ==>
              r.tree.nodes[expanded.value].status == Loading &&
              r.pending == c.pending + [Request(expanded.value, c.tree.nodes[expanded.value].kind.data)]
    ensures r != c && c.provider.None? ==>
              r.tree == c.tree && r.errors == c.errors + [ErrorMessage(DataProviderError, InternalError)]
    ensures expanded.Some? && c.tree.nodes[expanded.value].kind.Normal? &&
            c.tree.nodes[expanded.value].status == Null ==>
              r == ReloadContents(c, expanded.value)
  {
    match expanded
    case None => c
    case Some(n) =>
      var node := c.tree.nodes[n];
      if node.kind.Normal? && node.status == Null then ReloadContents(c, n) else c
  }

  /** Reloads the last selected node: nothing without a selection, for a FAKE node or for a
      node still LOADING; otherwise a directory reloads its contents, a file refreshes its
      preview, and a zip archive is left alone. */
  function ReloadLastSelectedNode(c: Controller): (r: Controller)
    requires Valid(c)
    ensures Valid(r) && Evolves(c, r)
    ensures c.lastSelected.None? ==> r == c
    ensures c.lastSelected.Some? &&
            (c.tree.nodes[c.lastSelected.value].kind.Fake? ||
             c.tree.nodes[c.lastSelected.value].status == Loading)
            ==> r == c
    ensures c.lastSelected.Some? && c.tree.nodes[c.lastSelected.value].kind.Normal? &&
            c.tree.nodes[c.lastSelected.value].status != Loading ==>
              var n := c.lastSelected.value;
              var d := c.tree.nodes[n].kind.data;
              && (d.PathTargetType() == Directory ==> r == ReloadContents(c, n))
              && (d.PathTargetType() == File ==> r == c.(previews := c.previews + [d]))
              && (d.PathTargetType() == ZipArchive ==> r == c)
  {
    match c.lastSelected
    case None => c
    case Some(n) =>
      var node := c.tree.nodes[n];
      if node.kind.Normal? && (node.status == Null || node.status == Loaded) then
        match node.kind.data.PathTargetType()
        case Directory => ReloadContents(c, n)
        case File => c.(previews := c.previews + [node.kind.data])
        case ZipArchive => c
      else c
  }

  lemma PendingAfterAnswer(c: Controller, i: nat, t: Tree)
    requires Valid(c) && i < |c.pending|
    requires DirTreeModel.Valid(t) && KindsKept(c.tree, t)
    requires forall k :: k in c.tree.nodes && t.nodes[k].status == Null ==> c.tree.nodes[k].status == Null
    requires c.lastSelected.Some? ==> c.lastSelected.value in t.nodes
    ensures Valid(c.(tree := t, pending := RemoveAt(c.pending, i)))
  {
  }

  /** The common outcome of both callbacks on a contained node `n`: `r` is `t` with the old
      children of `n` and their subtrees detached, `n` LOADED, every other status kept, and the
      new children of `n` contained exactly when `n` is. */
  ghost predicate ChildrenReplaced(t: Tree, r: Tree, n: NodeId)
    requires n in t.nodes
  {
    && DirTreeModel.Valid(r) && KindsKept(t, r)
    && n in r.nodes && r.nodes[n].status == Loaded && (ContainsNode(r, n) <==> ContainsNode(t, n))
    && (forall k :: k in t.nodes && k != n ==> r.nodes[k].status == t.nodes[k].status)
    && (forall k {:trigger r.nodes[k]} :: k in t.nodes && k != n ==>
          && r.nodes[k].children == t.nodes[k].children
          && r.nodes[k].parent == (if k in GetChildren(t, n) then None else t.nodes[k].parent))
    && (forall x {:trigger ContainsNode(r, x)} :: x in t.nodes ==>
          (ContainsNode(r, x) <==> ContainsNode(t, x) && !UnderAny(t, GetChildren(t, n), x)))
    && (forall j :: 0 <= j < |GetChildren(t, n)| ==> !ContainsNode(r, GetChildren(t, n)[j]))
    && (forall j :: 0 <= j < |GetChildren(r, n)| ==> (ContainsNode(r, GetChildren(r, n)[j]) <==> ContainsNode(t, n)))
  }

  /** `n` has exactly one child: a FAKE, LOADED, childless node captioned `caption`. */
  ghost predicate OnlyFakeChild(t: Tree, n: NodeId, caption: string)
    requires n in t.nodes
  {
    |GetChildren(t, n)| == 1 && GetChildren(t, n)[0] in t.nodes &&
    t.nodes[GetChildren(t, n)[0]] == Node(Fake(caption), Loaded, Some(n), [])
  }

  /** The children of `n` are the nodes of `contents`, one distinct node each, in order. */
  ghost predicate ChildrenFor(t: Tree, n: NodeId, contents: seq<TreeNodeData>)
    requires n in t.nodes
  {
    && |GetChildren(t, n)| == |contents|
    && (forall i {:trigger contents[i]} :: 0 <= i < |contents| ==> Materialised(t, GetChildren(t, n)[i], contents[i]))
    && (forall i, j :: 0 <= i < j < |contents| ==> GetChildren(t, n)[i] != GetChildren(t, n)[j])
  }

  /** Clearing the children of `n`, adding new ones under it, then marking it LOADED replaces
      its children. */
  lemma ReplaceChildren(t: Tree, cleared: Tree, filled: Tree, r: Tree, n: NodeId)
    requires DirTreeModel.Valid(t) && n in t.nodes
    requires DirTreeModel.Valid(cleared) && KindsKept(t, cleared) && cleared.nodes.Keys == t.nodes.Keys
    requires GetChildren(cleared, n) == []
    requires forall k :: k in t.nodes ==> cleared.nodes[k].status == t.nodes[k].status
    requires forall k :: k in t.nodes && k != n ==> cleared.nodes[k].children == t.nodes[k].children
    requires forall k {:trigger cleared.nodes[k]} :: k in t.nodes ==>
               cleared.nodes[k].parent == (if k in GetChildren(t, n) then None else t.nodes[k].parent)
    requires forall x :: ContainsNode(cleared, x) <==> ContainsNode(t, x) && !UnderAny(t, GetChildren(t, n), x)
    requires ContainsNode(cleared, n) <==> ContainsNode(t, n)
    requires DirTreeModel.Valid(filled) && KindsKept(cleared, filled) && cleared.nodes.Keys <= filled.nodes.Keys
    requires forall k {:trigger filled.nodes[k]} :: k in cleared.nodes && k != n ==> filled.nodes[k] == cleared.nodes[k]
    requires forall x {:trigger ContainsNode(filled, x)} :: x in cleared.nodes ==>
               (ContainsNode(filled, x) <==> ContainsNode(cleared, x))
    requires DirTreeModel.Valid(r) && KindsKept(filled, r) && r.nodes.Keys == filled.nodes.Keys
    requires r.nodes[n].status == Loaded && r.nodes[n].children == filled.nodes[n].children
    requires forall k {:trigger r.nodes[k]} :: k in filled.nodes && k != n ==> r.nodes[k] == filled.nodes[k]
    requires forall x :: ContainsNode(r, x) <==> ContainsNode(filled, x)
    ensures ChildrenReplaced(t, r, n)
  {
    forall k | k in t.nodes && k != n
      ensures r.nodes[k].status == t.nodes[k].status
      ensures r.nodes[k].children == t.nodes[k].children
      ensures r.nodes[k].parent == (if k in GetChildren(t, n) then None else t.nodes[k].parent)
    {
      assert r.nodes[k] == filled.nodes[k];
      assert filled.nodes[k] == cleared.nodes[k];
    }
    forall j | 0 <= j < |GetChildren(t, n)|
      ensures !ContainsNode(r, GetChildren(t, n)[j])
    {
      var x := GetChildren(t, n)[j];
      assert WellLinked(t, n);
      assert x in t.nodes && IsAncestorOrSelf(t, x, x);
    }
    forall j | 0 <= j < |GetChildren(r, n)|
      ensures ContainsNode(r, GetChildren(r, n)[j]) <==> ContainsNode(t, n)
    {
      ChildContainedIffParent(r, n, j);
    }
  }

  /** A node materialised for each item, appended under a childless `n`, stays so once `n` is
      marked LOADED. */
  lemma ContentsStay(cleared: Tree, filled: Tree, r: Tree, n: NodeId, contents: seq<TreeNodeData>)
    requires DirTreeModel.Valid(cleared) && n in cleared.nodes && GetChildren(cleared, n) == [] && contents != []
    requires ContentsAppended(cleared, filled, n, contents)
    requires DirTreeModel.Valid(r) && r.nodes.Keys == filled.nodes.Keys
    requires r.nodes[n].children == filled.nodes[n].children
    requires forall k {:trigger r.nodes[k]} :: k in filled.nodes && k != n ==> r.nodes[k] == filled.nodes[k]
    ensures ChildrenFor(r, n, contents)
  {
    forall i | 0 <= i < |contents|
      ensures Materialised(r, GetChildren(r, n)[i], contents[i])
    {
      var c := GetChildren(filled, n)[i];
      assert Materialised(filled, c, contents[i]);
      assert c in filled.nodes[n].children;
      MaterialisedKept(filled, r, n, c, contents[i]);
    }
    assert WellLinked(r, n);
  }

  /** A FAKE child added under a childless `n` stays the only child once `n` is marked LOADED. */
  lemma FakeChildStays(cleared: Tree, a: Added, r: Tree, n: NodeId, caption: string)
    requires n in cleared.nodes && GetChildren(cleared, n) == []
    requires n in a.tree.nodes && GetChildren(a.tree, n) == GetChildren(cleared, n) + [a.id]
    requires a.id in a.tree.nodes && a.tree.nodes[a.id] == Node(Fake(caption), Loaded, Some(n), [])
    requires n in r.nodes && r.nodes.Keys == a.tree.nodes.Keys
    requires r.nodes[n].children == a.tree.nodes[n].children
    requires forall k {:trigger r.nodes[k]} :: k in a.tree.nodes && k != n ==> r.nodes[k] == a.tree.nodes[k]
    ensures OnlyFakeChild(r, n, caption)
  {
    assert GetChildren(r, n) == [a.id];
    assert a.id != n by {
      assert a.tree.nodes[n].children != [];
    }
  }

  /** Replaces the children of `n` by the nodes of `contents` (or by one `<empty>` node) and
      marks `n` LOADED: the body of the contents inserter. */
  function InsertContents(t: Tree, n: NodeId, contents: seq<TreeNodeData>): (r: Tree)
    requires DirTreeModel.Valid(t) && n in t.nodes && t.nodes[n].kind.Normal?
    ensures ChildrenReplaced(t, r, n)
    ensures contents == [] ==> OnlyFakeChild(r, n, EmptyCaption)
    ensures contents != [] ==> ChildrenFor(r, n, contents)
  {
    var cleared := RemoveAllChildren(t, n);
    RemovedSubtreesDetached(t, n, n);
    if contents == [] then
      var a := AddFakeChild(cleared, n, EmptyCaption);
      var r := SetStatus(a.tree, n, Loaded);
      ReplaceChildren(t, cleared, a.tree, r, n);
      FakeChildStays(cleared, a, r, n, EmptyCaption);
      r
    else
      var filled := AddContents(cleared, n, contents);
      var r := SetStatus(filled, n, Loaded);
      ReplaceChildren(t, cleared, filled, r, n);
      ContentsStay(cleared, filled, r, n, contents);
      r
  }

  /** Answering pending request `i` with a tree `t` that replaced the children of the request's
      node keeps the controller valid and evolves it by one step. */
  lemma AnswerEvolves(c: Controller, i: nat, t: Tree)
    requires Valid(c) && i < |c.pending| && c.pending[i].node in c.tree.nodes
    requires ChildrenReplaced(c.tree, t, c.pending[i].node)
    requires c.tree.nodes[c.pending[i].node].status != Null
    requires c.lastSelected.Some? ==> c.lastSelected.value in t.nodes
    ensures Valid(c.(tree := t, pending := RemoveAt(c.pending, i)))
    ensures Evolves(c, c.(tree := t, pending := RemoveAt(c.pending, i)))
  {
    PendingAfterAnswer(c, i, t);
  }

  /** The provider's success callback for pending request `i`. If the node has meanwhile left
      the tree, only the request is consumed. Otherwise the node's children become the results
      in order, or a single FAKE `<empty>` node when there are none, and the node is LOADED. */
  function OnContentsLoaded(c: Controller, i: nat, contents: seq<TreeNodeData>): (r: Controller)
    requires Valid(c) && i < |c.pending|
    ensures Valid(r) && Evolves(c, r)
    ensures r.pending == RemoveAt(c.pending, i)
    ensures r.errors == c.errors && r.provider == c.provider && r.previews == c.previews
    ensures r.lastSelected == c.lastSelected
    ensures !ContainsNode(c.tree, c.pending[i].node) ==> r.tree == c.tree
    ensures ContainsNode(c.tree, c.pending[i].node) ==>
              var n := c.pending[i].node;
              && n in c.tree.nodes
              && ChildrenReplaced(c.tree, r.tree, n) && ContainsNode(r.tree, n)
              && (contents == [] ==> OnlyFakeChild(r.tree, n, EmptyCaption))
              && (contents != [] ==> ChildrenFor(r.tree, n, contents))
  {
    var req := c.pending[i];
    var rest := RemoveAt(c.pending, i);
    assert PendingFor(c.tree, req);
    if !ContainsNode(c.tree, req.node) then
      PendingAfterAnswer(c, i, c.tree);
      c.(pending := rest)
    else
      var t := InsertContents(c.tree, req.node, contents);
      assert c.lastSelected.Some? ==> c.lastSelected.value in t.nodes;
      AnswerEvolves(c, i, t);
      c.(tree := t, pending := rest)
  }

  /** The provider's failure callback for pending request `i`. If the node has meanwhile left
      the tree, only the request is consumed. Otherwise the node's children become one FAKE
      `<error>` node, the provider's message is reported, and the node is LOADED. */
  function OnContentsFailed(c: Controller, i: nat, message: string): (r: Controller)
    requires Valid(c) && i < |c.pending|
    ensures Valid(r) && Evolves(c, r)
    ensures r.pending == RemoveAt(c.pending, i)
    ensures r.provider == c.provider && r.previews == c.previews && r.lastSelected == c.lastSelected
    ensures !ContainsNode(c.tree, c.pending[i].node) ==> r.tree == c.tree && r.errors == c.errors
    ensures ContainsNode(c.tree, c.pending[i].node) ==>
              var n := c.pending[i].node;
              && n in c.tree.nodes
              && ChildrenReplaced(c.tree, r.tree, n) && ContainsNode(r.tree, n)
              && OnlyFakeChild(r.tree, n, ErrorCaption)
              && r.errors == c.errors + [ErrorMessage(DataProviderError, message)]
  {
    var req := c.pending[i];
    var rest := RemoveAt(c.pending, i);
    assert PendingFor(c.tree, req);
    if !ContainsNode(c.tree, req.node) then
      PendingAfterAnswer(c, i, c.tree);
      c.(pending := rest)
    else
      var n := req.node;
      var cleared := RemoveAllChildren(c.tree, n);
      RemovedSubtreesDetached(c.tree, n, n);
      var a := AddFakeChild(cleared, n, ErrorCaption);
      var t := SetStatus(a.tree, n, Loaded);
      ReplaceChildren(c.tree, cleared, a.tree, t, n);
      FakeChildStays(cleared, a, t, n, ErrorCaption);
      assert c.lastSelected.Some? ==> c.lastSelected.value in t.nodes;
      AnswerEvolves(c, i, t);
      c.(tree := t, pending := rest, errors := c.errors + [ErrorMessage(DataProviderError, message)])
  }

  /** Expanding the same node twice asks the provider once: the first expansion left the node
      LOADING, and the second one is ignored. */
  lemma ExpandTwice(c: Controller, n: NodeId)
    requires Valid(c) && n in c.tree.nodes && c.provider.Some?
    ensures var once := HandleTreeExpansion(c, Some(n));
            HandleTreeExpansion(once, Some(n)) == once
  {
  }

  /** Expanding a NULL directory node and then answering its request loads exactly the answer
      under it: the node ends LOADED with the results as its children, in order. */
  lemma ExpandThenLoad(c: Controller, n: NodeId, contents: seq<TreeNodeData>)
    requires Valid(c) && n in c.tree.nodes && c.provider.Some? && ContainsNode(c.tree, n)
    requires c.tree.nodes[n].kind.Normal? && c.tree.nodes[n].status == Null
    ensures var e := HandleTreeExpansion(c, Some(n));
            && |e.pending| == |c.pending| + 1
            && var r := OnContentsLoaded(e, |c.pending|, contents);
               && r.pending == c.pending
               && r.tree.nodes[n].status == Loaded && ContainsNode(r.tree, n)
               && (contents == [] ==> OnlyFakeChild(r.tree, n, EmptyCaption))
               && (contents != [] ==> ChildrenFor(r.tree, n, contents))
  {
  }

  /** Switching providers detaches every node the old provider was asked about, so every answer
      still pending afterwards, success or failure, leaves the tree as it is. */
  lemma ResetOrphansPending(c: Controller, p: Provider, i: nat, contents: seq<TreeNodeData>, message: string)
    requires Valid(c) && i < |c.pending|
    ensures var r := ResetDataProvider(c, Some(p));
            && i < |r.pending| && !ContainsNode(r.tree, r.pending[i].node)
            && OnContentsLoaded(r, i, contents).tree == r.tree
            && OnContentsFailed(r, i, message).tree == r.tree
            && OnContentsFailed(r, i, message).errors == r.errors
  {
    var x := c.pending[i].node;
    assert PendingFor(c.tree, c.pending[i]);
    assert x != Root;
    if ContainsNode(c.tree, x) {
      ContainedBelowRootChild(c.tree, x);
    }
  }
}

=== FILE: dir_tree_model.dfy ===
/** The lazy directory tree as an arena: every node lives in a map under a stable id, with its
    type (NORMAL, carrying a datum, or FAKE, carrying only a caption), its load status, its
    parent and its ordered children. A node is contained in the tree when its parent chain leads
    to the root. Removing children detaches them but keeps them in the arena, so that a callback
    still holding one can ask whether it is contained. */
module DirTreeModel {
  import opened Outcomes
  import opened FsPaths

  type NodeId = nat

  /** The root always has id 0; later nodes get increasing ids, so a parent's id is smaller than
      its child's. */
  const Root: NodeId := 0

  /** Caption of the root and of the placeholder under an unexpanded directory. */
  const RootCaption: string := ""
  const PlaceholderCaption: string := ""

  datatype NodeType = Normal(data: TreeNodeData) | Fake(caption: string)

  datatype Status = Null | Loading | Loaded

  datatype Node = Node(kind: NodeType, status: Status, parent: Option<NodeId>, children: seq<NodeId>)

  datatype Tree = Tree(nodes: map<NodeId, Node>, next: NodeId)

  /** A tree together with the id of the node just added to it. */
  datatype Added = Added(tree: Tree, id: NodeId)

  /** The text a node displays. */
  function Caption(k: NodeType): string
  {
    match k
    case Normal(d) => d.text
    case Fake(c) => c
  }

  ghost predicate ParentLinked(t: Tree, id: NodeId)
    requires id in t.nodes
  {
    match t.nodes[id].parent
    case None => true
    case Some(p) => p < id && p in t.nodes && id in t.nodes[p].children
  }

  /** Every child of `id` is a node whose parent is `id`, and no node is listed twice. */
  ghost predicate ChildrenLinked(t: Tree, id: NodeId)
    requires id in t.nodes
  {
    && (forall i :: 0 <= i < |t.nodes[id].children| ==>
          t.nodes[id].children[i] in t.nodes && t.nodes[t.nodes[id].children[i]].parent == Some(id))
    && (forall i, j :: 0 <= i < j < |t.nodes[id].children| ==>
          t.nodes[id].children[i] != t.nodes[id].children[j])
  }

  /** The links of one node: its id is below `next`, its parent and children links agree, and a
      FAKE node is LOADED. */
  ghost predicate WellLinked(t: Tree, id: NodeId)
    requires id in t.nodes
  {
    && id < t.next
    && ParentLinked(t, id)
    && ChildrenLinked(t, id)
    && (t.nodes[id].kind.Fake? ==> t.nodes[id].status == Loaded)
  }

  /** The arena's invariant: the root is present and has no parent, and every node is well
      linked. */
  ghost predicate Valid(t: Tree)
  {
    && Root in t.nodes
    && t.nodes[Root].parent.None?
    && (forall id {:trigger WellLinked(t, id)} :: id in t.nodes ==> WellLinked(t, id))
  }

  /** Every node of `t` is still in `r` with the same type. */
  ghost predicate KindsKept(t: Tree, r: Tree)
  {
    forall k :: k in t.nodes ==> k in r.nodes && r.nodes[k].kind == t.nodes[k].kind
  }

  /** `a` is `x` or one of its ancestors. */
  function IsAncestorOrSelf(t: Tree, a: NodeId, x: NodeId): bool
    decreases x
  {
    x == a ||
    (x in t.nodes && t.nodes[x].parent.Some? && t.nodes[x].parent.value < x &&
     IsAncestorOrSelf(t, a, t.nodes[x].parent.value))
  }

  /** The node is attached to the tree: its parent chain reaches the root. In a valid tree that
      is the root itself, or a node whose parent is attached. */
  function ContainsNode(t: Tree, x: NodeId): (b: bool)
    ensures b ==> x in t.nodes
    ensures Valid(t) ==>
              (b <==> x in t.nodes &&
                      (x == Root ||
                       (t.nodes[x].parent.Some? && IsAncestorOrSelf(t, Root, t.nodes[x].parent.value))))
  {
    assert Valid(t) && x in t.nodes ==> WellLinked(t, x);
    x in t.nodes && IsAncestorOrSelf(t, Root, x)
  }

  function GetChildren(t: Tree, n: NodeId): seq<NodeId>
    requires n in t.nodes
  {
    t.nodes[n].children
  }

  /** `x` lies in the subtree of one of the nodes `cs`. */
  ghost predicate UnderAny(t: Tree, cs: seq<NodeId>, x: NodeId)
  {
    exists i :: 0 <= i < |cs| && IsAncestorOrSelf(t, cs[i], x)
  }

  /** The FAKE, LOADED, childless node put under a directory whose contents are not loaded. */
  ghost predicate IsPlaceholder(t: Tree, id: NodeId)
  {
    id in t.nodes && t.nodes[id] == Node(Fake(PlaceholderCaption), Loaded, t.nodes[id].parent, [])
  }

  /** `id` holds a NORMAL node for `d` in status NULL whose only child is a placeholder. */
  ghost predicate IsNullDir(t: Tree, id: NodeId, d: TreeNodeData)
  {
    && id in t.nodes
    && t.nodes[id].kind == Normal(d)
    && t.nodes[id].status == Null
    && |t.nodes[id].children| == 1
    && IsPlaceholder(t, t.nodes[id].children[0])
  }

  /** `id` holds a NORMAL, LOADED, childless node for `d`. */
  ghost predicate IsFileLeaf(t: Tree, id: NodeId, d: TreeNodeData)
  {
    id in t.nodes && t.nodes[id].kind == Normal(d) && t.nodes[id].status == Loaded && t.nodes[id].children == []
  }

  /** A fresh model: only a FAKE, LOADED root without children. */
  function Init(): (t: Tree)
    ensures Valid(t)
    ensures t.nodes.Keys == {Root}
    ensures ContainsNode(t, Root)
    ensures t.nodes[Root].kind.Fake? && t.nodes[Root].status == Loaded
    ensures GetChildren(t, Root) == []
  {
    Tree(map[Root := Node(Fake(RootCaption), Loaded, None, [])], Root + 1)
  }

  /** An ancestor never has a larger id than its descendant. */
  lemma {:induction false} AncestorBelow(t: Tree, a: NodeId, x: NodeId)
    requires IsAncestorOrSelf(t, a, x)
    ensures a <= x
    decreases x
  {
    if x != a {
      AncestorBelow(t, a, t.nodes[x].parent.value);
    }
  }

  /** Ancestry inside the old nodes depends only on their parent links. */
  lemma {:induction false} AncestryFrame(t: Tree, r: Tree, a: NodeId, x: NodeId)
    requires Valid(t)
    requires x in t.nodes
    requires forall y :: y in t.nodes ==> y in r.nodes && r.nodes[y].parent == t.nodes[y].parent
    ensures IsAncestorOrSelf(r, a, x) == IsAncestorOrSelf(t, a, x)
    decreases x
  {
    if x != a && t.nodes[x].parent.Some? {
      assert WellLinked(t, x);
      AncestryFrame(t, r, a, t.nodes[x].parent.value);
    }
  }

  /** A child is contained exactly when its parent is. */
  lemma ChildContainedIffParent(t: Tree, n: NodeId, i: nat)
    requires Valid(t) && n in t.nodes && i < |t.nodes[n].children|
    ensures ContainsNode(t, t.nodes[n].children[i]) <==> ContainsNode(t, n)
  {
    assert WellLinked(t, n);
    var c := t.nodes[n].children[i];
    assert WellLinked(t, c);
  }

  /** Every contained node other than the root hangs below one of the root's children. */
  lemma {:induction false} ContainedBelowRootChild(t: Tree, x: NodeId)
    requires Valid(t) && ContainsNode(t, x) && x != Root
    ensures UnderAny(t, GetChildren(t, Root), x)
    decreases x
  {
    assert WellLinked(t, x);
    var p := t.nodes[x].parent.value;
    var cs := GetChildren(t, Root);
    if p == Root {
      var i :| 0 <= i < |cs| && cs[i] == x;
      assert IsAncestorOrSelf(t, cs[i], x);
    } else {
      ContainedBelowRootChild(t, p);
      var i :| 0 <= i < |cs| && IsAncestorOrSelf(t, cs[i], p);
      assert IsAncestorOrSelf(t, cs[i], x);
    }
  }

  /** `next` is not yet in use. */
  lemma NextIsFresh(t: Tree)
    requires Valid(t)
    ensures t.next !in t.nodes
  {
    forall id | id in t.nodes
      ensures id < t.next
    {
      assert WellLinked(t, id);
    }
  }

  lemma AppendKeepsValid(t: Tree, r: Tree, p: NodeId, id: NodeId, kind: NodeType, status: Status)
    requires Valid(t) && p in t.nodes && id == t.next
    requires kind.Fake? ==> status == Loaded
    requires r == Tree(t.nodes[p := t.nodes[p].(children := t.nodes[p].children + [id])]
                              [id := Node(kind, status, Some(p), [])], id + 1)
    ensures Valid(r)
  {
    NextIsFresh(t);
    assert WellLinked(t, p);
    forall k | k in r.nodes
      ensures WellLinked(r, k)
    {
      if k != id {
        assert WellLinked(t, k);
      }
    }
  }

  lemma AppendContainment(t: Tree, r: Tree, p: NodeId, id: NodeId, kind: NodeType, status: Status)
    requires Valid(t) && p in t.nodes && id == t.next
    requires r == Tree(t.nodes[p := t.nodes[p].(children := t.nodes[p].children + [id])]
                              [id := Node(kind, status, Some(p), [])], id + 1)
    ensures forall x :: ContainsNode(r, x) <==> ContainsNode(t, x) || (x == id && ContainsNode(t, p))
  {
    NextIsFresh(t);
    assert WellLinked(t, p);
    forall x
      ensures ContainsNode(r, x) <==> ContainsNode(t, x) || (x == id && ContainsNode(t, p))
    {
      if x in t.nodes {
        AncestryFrame(t, r, Root, x);
      } else if x == id {
        AncestryFrame(t, r, Root, p);
      }
    }
  }

  /** Appends one childless node of the given type and status as the last child of `p`. */
  function Append(t: Tree, p: NodeId, kind: NodeType, status: Status): (r: Added)
    requires Valid(t) && p in t.nodes
    requires kind.Fake? ==> status == Loaded
    ensures Valid(r.tree) && KindsKept(t, r.tree)
    ensures r.id == t.next && r.id !in t.nodes && r.tree.next == t.next + 1
    ensures r.tree.nodes.Keys == t.nodes.Keys + {r.id}
    ensures r.tree.nodes[r.id] == Node(kind, status, Some(p), [])
    ensures r.tree.nodes[p] == t.nodes[p].(children := t.nodes[p].children + [r.id])
    ensures forall k {:trigger r.tree.nodes[k]} :: k in t.nodes && k != p ==> r.tree.nodes[k] == t.nodes[k]
    ensures forall x :: ContainsNode(r.tree, x) <==> ContainsNode(t, x) || (x == r.id && ContainsNode(t, p))
  {
    var id := t.next;
    var tr := Tree(t.nodes[p := t.nodes[p].(children := t.nodes[p].children + [id])]
                          [id := Node(kind, status, Some(p), [])], id + 1);
    NextIsFresh(t);
    AppendKeepsValid(t, tr, p, id, kind, status);
    AppendContainment(t, tr, p, id, kind, status);
    Added(tr, id)
  }

  /** Appends a NORMAL directory node in status NULL, holding one FAKE, LOADED placeholder. */
  function AddNullDirChild(t: Tree, p: NodeId, data: TreeNodeData): (r: Added)
    requires Valid(t) && p in t.nodes
    ensures Valid(r.tree) && KindsKept(t, r.tree)
    ensures GetChildren(r.tree, p) == GetChildren(t, p) + [r.id]
    ensures r.tree.nodes[p].kind == t.nodes[p].kind && r.tree.nodes[p].status == t.nodes[p].status
    ensures r.id !in t.nodes && r.id in r.tree.nodes
    ensures r.tree.nodes[r.id].kind == Normal(data) && r.tree.nodes[r.id].status == Null
    ensures |GetChildren(r.tree, r.id)| == 1
    ensures GetChildren(r.tree, r.id)[0] !in t.nodes && IsPlaceholder(r.tree, GetChildren(r.tree, r.id)[0])
    ensures IsNullDir(r.tree, r.id, data)
    ensures r.tree.nodes.Keys == t.nodes.Keys + {r.id, GetChildren(r.tree, r.id)[0]}
    ensures forall k {:trigger r.tree.nodes[k]} :: k in t.nodes && k != p ==> r.tree.nodes[k] == t.nodes[k]
    ensures forall x {:trigger ContainsNode(r.tree, x)} :: x in t.nodes ==> (ContainsNode(r.tree, x) <==> ContainsNode(t, x))
    ensures ContainsNode(r.tree, r.id) <==> ContainsNode(t, p)
  {
    var dir := Append(t, p, Normal(data), Null);
    var placeholder := Append(dir.tree, dir.id, Fake(PlaceholderCaption), Loaded);
    Added(placeholder.tree, dir.id)
  }

  /** Appends a NORMAL, LOADED leaf node for a file. */
  function AddFileChild(t: Tree, p: NodeId, data: TreeNodeData): (r: Added)
    requires Valid(t) && p in t.nodes
    ensures Valid(r.tree) && KindsKept(t, r.tree)
    ensures GetChildren(r.tree, p) == GetChildren(t, p) + [r.id]
    ensures r.tree.nodes[p].kind == t.nodes[p].kind && r.tree.nodes[p].status == t.nodes[p].status
    ensures r.id !in t.nodes && r.id in r.tree.nodes
    ensures r.tree.nodes[r.id].kind == Normal(data) && r.tree.nodes[r.id].status == Loaded
    ensures GetChildren(r.tree, r.id) == []
    ensures IsFileLeaf(r.tree, r.id, data)
    ensures r.tree.nodes.Keys == t.nodes.Keys + {r.id}
    ensures forall k {:trigger r.tree.nodes[k]} :: k in t.nodes && k != p ==> r.tree.nodes[k] == t.nodes[k]
    ensures forall x {:trigger ContainsNode(r.tree, x)} :: x in t.nodes ==> (ContainsNode(r.tree, x) <==> ContainsNode(t, x))
    ensures ContainsNode(r.tree, r.id) <==> ContainsNode(t, p)
  {
    Append(t, p, Normal(data), Loaded)
  }

  /** Appends a FAKE, LOADED leaf node showing `caption`. */
  function AddFakeChild(t: Tree, p: NodeId, caption: string): (r: Added)
    requires Valid(t) && p in t.nodes
    ensures Valid(r.tree) && KindsKept(t, r.tree)
    ensures GetChildren(r.tree, p) == GetChildren(t, p) + [r.id]
    ensures r.tree.nodes[p].kind == t.nodes[p].kind && r.tree.nodes[p].status == t.nodes[p].status
    ensures r.id !in t.nodes && r.id in r.tree.nodes
    ensures r.tree.nodes[r.id] == Node(Fake(caption), Loaded, Some(p), [])
    ensures Caption(r.tree.nodes[r.id].kind) == caption
    ensures r.tree.nodes.Keys == t.nodes.Keys + {r.id}
    ensures forall k {:trigger r.tree.nodes[k]} :: k in t.nodes && k != p ==> r.tree.nodes[k] == t.nodes[k]
    ensures forall x {:trigger ContainsNode(r.tree, x)} :: x in t.nodes ==> (ContainsNode(r.tree, x) <==> ContainsNode(t, x))
    ensures ContainsNode(r.tree, r.id) <==> ContainsNode(t, p)
  {
    Append(t, p, Fake(caption), Loaded)
  }

  /** The nodes of `r` are those of `t` with the children `cs` of `n` detached and `n`'s list
      emptied. */
  ghost predicate DetachedFrom(t: Tree, r: Tree, n: NodeId)
    requires n in t.nodes
  {
    && r.nodes.Keys == t.nodes.Keys
    && r.next == t.next
    && (forall k :: k in t.nodes ==>
          r.nodes[k].kind == t.nodes[k].kind && r.nodes[k].status == t.nodes[k].status)
    && (forall k :: k in t.nodes ==>
          r.nodes[k].parent == (if k in t.nodes[n].children then None else t.nodes[k].parent))
    && (forall k :: k in t.nodes ==>
          r.nodes[k].children == (if k == n then [] else t.nodes[k].children))
  }

  lemma RemoveKeepsValid(t: Tree, r: Tree, n: NodeId)
    requires Valid(t) && n in t.nodes && DetachedFrom(t, r, n)
    ensures Valid(r)
  {
    var cs := t.nodes[n].children;
    assert WellLinked(t, n);
    forall k | k in r.nodes
      ensures WellLinked(r, k)
    {
      assert WellLinked(t, k);
    }
  }

  lemma {:induction false} RemoveContainment(t: Tree, r: Tree, n: NodeId, x: NodeId)
    requires Valid(t) && n in t.nodes && DetachedFrom(t, r, n)
    requires x in t.nodes
    ensures IsAncestorOrSelf(r, Root, x) <==>
            IsAncestorOrSelf(t, Root, x) && !UnderAny(t, t.nodes[n].children, x)
    decreases x
  {
    var cs := t.nodes[n].children;
    assert WellLinked(t, n);
    if x == Root {
      forall i | 0 <= i < |cs|
        ensures !IsAncestorOrSelf(t, cs[i], x)
      {
        assert t.nodes[cs[i]].parent == Some(n);
      }
    } else if x in cs {
      var i :| 0 <= i < |cs| && cs[i] == x;
      assert IsAncestorOrSelf(t, cs[i], x);
    } else {
      assert WellLinked(t, x);
      if t.nodes[x].parent.Some? {
        var p := t.nodes[x].parent.value;
        RemoveContainment(t, r, n, p);
        forall i | 0 <= i < |cs|
          ensures IsAncestorOrSelf(t, cs[i], x) == IsAncestorOrSelf(t, cs[i], p)
        {
        }
      }
    }
  }

  /** Removes all children of `n`. They and their subtrees stay in the arena but are no longer
      contained; nothing else changes its containment. */
  function RemoveAllChildren(t: Tree, n: NodeId): (r: Tree)
    requires Valid(t) && n in t.nodes
    ensures Valid(r) && KindsKept(t, r)
    ensures r.nodes.Keys == t.nodes.Keys && r.next == t.next
    ensures GetChildren(r, n) == []
    ensures forall k :: k in t.nodes ==> r.nodes[k].status == t.nodes[k].status
    ensures forall k :: k in t.nodes && k != n ==> r.nodes[k].children == t.nodes[k].children
    ensures forall k {:trigger r.nodes[k]} :: k in t.nodes ==>
              r.nodes[k].parent == (if k in GetChildren(t, n) then None else t.nodes[k].parent)
    ensures forall x :: ContainsNode(r, x) <==>
              ContainsNode(t, x) && !UnderAny(t, GetChildren(t, n), x)
  {
    var cs := t.nodes[n].children;
    var detached := map k | k in t.nodes ::
      if k in cs then t.nodes[k].(parent := None) else t.nodes[k];
    var r := Tree(detached[n := detached[n].(children := [])], t.next);
    assert n !in cs by {
      assert WellLinked(t, n);
      forall i | 0 <= i < |cs| ensures cs[i] != n {
        assert WellLinked(t, cs[i]);
      }
    }
    assert DetachedFrom(t, r, n);
    RemoveKeepsValid(t, r, n);
    assert forall x :: ContainsNode(r, x) <==>
              ContainsNode(t, x) && !UnderAny(t, GetChildren(t, n), x) by {
      forall x
        ensures ContainsNode(r, x) <==> ContainsNode(t, x) && !UnderAny(t, GetChildren(t, n), x)
      {
        if x in t.nodes {
          RemoveContainment(t, r, n, x);
        }
      }
    }
    r
  }

  /** After `RemoveAllChildren(n)`, `n` keeps its containment while every former child of `n`
      and every descendant of one is detached. */
  lemma RemovedSubtreesDetached(t: Tree, n: NodeId, x: NodeId)
    requires Valid(t) && n in t.nodes
    ensures ContainsNode(RemoveAllChildren(t, n), n) <==> ContainsNode(t, n)
    ensures UnderAny(t, GetChildren(t, n), x) ==> !ContainsNode(RemoveAllChildren(t, n), x)
  {
    var cs := GetChildren(t, n);
    assert WellLinked(t, n);
    forall i | 0 <= i < |cs|
      ensures !IsAncestorOrSelf(t, cs[i], n)
    {
      assert WellLinked(t, cs[i]);
      if IsAncestorOrSelf(t, cs[i], n) {
        AncestorBelow(t, cs[i], n);
      }
    }
  }

  /** Changes the status of the NORMAL node `n` and nothing else. */
  function SetStatus(t: Tree, n: NodeId, s: Status): (r: Tree)
    requires Valid(t) && n in t.nodes && t.nodes[n].kind.Normal?
    ensures Valid(r) && KindsKept(t, r)
    ensures r.nodes.Keys == t.nodes.Keys && r.next == t.next
    ensures r.nodes[n].status == s && r.nodes[n].children == t.nodes[n].children
    ensures forall k {:trigger r.nodes[k]} :: k in t.nodes && k != n ==> r.nodes[k] == t.nodes[k]
    ensures forall x :: ContainsNode(r, x) <==> ContainsNode(t, x)
  {
    var r := Tree(t.nodes[n := t.nodes[n].(status := s)], t.next);
    forall k | k in r.nodes
      ensures WellLinked(r, k)
    {
      assert WellLinked(t, k);
    }
    forall x
      ensures ContainsNode(r, x) <==> ContainsNode(t, x)
    {
      if x in t.nodes {
        AncestryFrame(t, r, Root, x);
      }
    }
    r
  }
}

=== FILE: fs_paths.dfy ===
/** The path model: plain paths in some backend, entries inside zip archives, the kind of thing a
    path points at, and the datum a directory-tree node carries. */
module FsPaths {

  /** What a path points at. A ZIP_ARCHIVE is expandable like a directory. */
  datatype TargetType = File | Directory | ZipArchive

  const ZipSuffix: string := ".zip"

  predicate HasSuffix(s: string, suffix: string)
  {
    |suffix| <= |s| && s[|s| - |suffix|..] == suffix
  }

  /** A backend-local path with its directory flag and its cached last component. */
  datatype FsPath = FsPath(path: string, isDirectory: bool, lastComponent: string)
  {
    /** The kind of the target: a directory, a zip archive (recognised by its extension), or a
        plain file. */
    function Target(): (t: TargetType)
      ensures t == Directory <==> isDirectory
      ensures t == ZipArchive <==> !isDirectory && HasSuffix(lastComponent, ZipSuffix)
    {
      if isDirectory then Directory
      else if HasSuffix(lastComponent, ZipSuffix) then ZipArchive
      else File
    }
  }

  /** An entry inside a zip archive: the owning archive, the entry's name inside it, its kind
      and its last component. */
  datatype ArchiveEntryPath = ArchiveEntryPath(
    archivePath: FsPath,
    entryName: string,
    targetType: TargetType,
    lastComponent: string)

  /** Either kind of path a tree node can stand for. */
  datatype NodePath = Plain(fsPath: FsPath) | InArchive(entry: ArchiveEntryPath)

  /** The datum of a NORMAL tree node: its display text and its path. */
  datatype TreeNodeData = TreeNodeData(text: string, path: NodePath)
  {
    function PathTargetType(): TargetType
    {
      match path
      case Plain(p) => p.Target()
      case InArchive(e) => e.targetType
    }

    /** Directories and zip archives can be expanded; everything else is a leaf. */
    predicate IsDirLike()
    {
      PathTargetType() == Directory || PathTargetType() == ZipArchive
    }
  }
}

=== FILE: outcomes.dfy ===
/** Failure-carrying values shared by every module of the model: `Option` stands for a Java
    reference that may be null, `Result` for a value or a thrown exception. */
module Outcomes {

  /** A value that may be absent (a Java `null`). */
  datatype Option<+T> = None | Some(value: T)

  /** Either a value or the error that an operation raised instead. */
  datatype Result<+T, +E> = Success(value: T) | Failure(error: E)
}
